=== FILE: README.md ===
# Lexical analyser core, modelled in Dafny

This project models the core of a small C++ lexical analyser: the keyword
prefix tree `KeywordsTree` (`tokens.h`) and the scanner
`LexicalAnalyser::tokenize` with its helpers (`main.cpp`).

- `keywords_tree.dfy`, module `KeywordsTree`: the tree as an immutable value
  `Node(to: map<char, Node>, termCnt: nat, isTerm: bool)`. `Find` walks a
  word and fails at the first missing edge; it never looks at `isTerm`, so
  it is a prefix test and `Find(t, "")` always holds. `Insert` bumps the
  counter of the root and of every node on the word's path, creates missing
  edges and marks the last node terminal. `Build` inserts a list of words in
  order, as the analyser's constructor does. A missing map key stands for a
  null child pointer.
- `lexer.dfy`, module `Lexer`: `TokenType`, `Token` (kind and text), the
  character classes `IsSpace`, `IsEnter`, `IsAlpha`, `IsDigit` and
  `IsAlphaNumeric`, the 13 reserved words of `initializeKeywords`, `WordEnd`
  (`getWord`), `NumberEnd` (`getNumber`), `ClassifyWord` and `NumberKind`
  (the classification branches), `Step` (one iteration of the scanner loop),
  `Scan` (the loop, by recursion on `|input| - position`) and `Tokenize`.
  The C++ `withNum` pair is the `PendingSign` state: `NoSign`, `Plus` or `Minus`.
- `scanner_examples.dfy`, module `ScannerExamples`: small inputs worked out
  against the model.

The data and constants, with the source they stand for (types and constants
have no contract, so they appear here rather than in the table below):

- `KeywordsTree.Node` is `KeywordsTree::Word` (tokens.h:9-13); `KeywordsTree.Empty`
  is `new Word()` (tokens.h:23, 45).
- `Lexer.TokenType` is the `TokenType` enumeration (main.cpp:4-18) and
  `Lexer.Token` is `Token` without its line/column pair (main.cpp:20-27).
- `Lexer.PendingSign` is the `withNum` pair, value-initialised to "no sign"
  (main.cpp:41); `Lexer.SignText` is the character it prepends to a number
  (main.cpp:84-89).
- `Lexer.Keywords` is the list of `initializeKeywords` in insertion order
  (main.cpp:151-163) and `Lexer.KeywordStore` is the tree built from it
  (main.cpp:165-177).
- `Lexer.CharAt` reads `input_[i]`, giving `'\0'` at `i == input_.length()`
  (main.cpp:213).

Behaviour of the code that the model keeps:

- `find` never reads `isTerm`, so it is a prefix test: in the scanner every
  prefix of a reserved word is a KEYWORD (`i`, `fo`, `con`), while `int`,
  `float`, `bool` and `string` are not prefixes of reserved words and so
  reach their type branches.
- `insert` bumps the counters even when the word is already present, so a
  word inserted again counts again.
- The scanner is a single loop whose only state between iterations is the
  cursor and the pending sign. A letter consumes the whole word, a digit the
  whole number, and every other character exactly one position.
- `+`, and `-` when no sign is pending, emit nothing and set the pending sign;
  the next number is prefixed with it; a space clears it. So `5 - 3` gives two
  integers, `+-7` gives OPERATOR `-` then INTEGER `+7`, and a `+` is never a
  token of its own. `*`, `/`, letters, newlines, punctuators and UNKNOWN
  characters leave the pending sign alone.
- `getNumber` takes digits and at most one `.`: `1.2.3` gives FLOAT `1.2`,
  UNKNOWN `.`, INTEGER `3`. Its loop guard is written
  `pos < len && isDigit(s[pos]) || s[pos] == '.'`; `NumberGuard` models it as
  written, reading `'\0'` one past the end, and proves it equal to the
  intended guard.
- `getWord` and `getNumber` run up to the end of the input, so the last
  token is emitted like any other.
- `isAlpha` accepts ASCII letters only, so `_`, like tab, `\r`, `=` and any
  other character outside the handled classes, is a one-character UNKNOWN
  token.
- `find` returns only a boolean and the model's `Find` is a pure function, so
  it cannot change the tree. The C++ `find` does add null entries to the child
  maps through `std::map::operator[]`; a null entry is an absent child for
  both `find` and `insert`, so this changes nothing they can observe.

## Model

| member | source | states |
|---|---|---|
| KeywordsTree.Find | tokens.h:26-37 | the lookup itself, with no contract of its own; its meaning is stated by `FindIffPath`, `InsertFind` and `BuildFind` |
| KeywordsTree.Insert | tokens.h:39-51 | after `insert(w)`, `find(w)` holds and the node reached by `w` is terminal; the effect on every other node is stated by `InsertFind`, `InsertTerminal` and `InsertCount` |
| KeywordsTree.Build | main.cpp:165-177 | the constructor's sequence of `insert` calls, with no contract of its own; described by `BuildFind`, `BuildTerminal`, `BuildCount`, `BuildRootCount` and `BuildWellCounted` |
| KeywordsTree.Empty | tokens.h:9-13 | `new Word()`: no children, zero count, not terminal; a function with no contract of its own, shown to satisfy the counting invariant by `EmptyWellCounted` |
| KeywordsTree.FindIffPath | tokens.h:26-37 | `find(p)` holds exactly when the edge path spelled by `p` exists; `isTerm` plays no part |
| KeywordsTree.FindPrefixClosed | tokens.h:26-37 | if `find` accepts a word it accepts every prefix of it, the empty word included |
| KeywordsTree.InsertReachOnPath | tokens.h:39-51 | at every prefix `p` of `w`, the node after `insert(w)` is the old node there (or a new one if none existed) with the rest of `w` inserted into it |
| KeywordsTree.InsertReachOffPath | tokens.h:39-51 | every node reached by a word that is not a prefix of `w` is identical before and after `insert(w)` |
| KeywordsTree.InsertFind | tokens.h:39-51 | after `insert(w)`, `find(p)` holds iff it held before or `p` is a prefix of `w`: existing edges are reused and only prefixes of `w` are added |
| KeywordsTree.InsertTerminal | tokens.h:47-50 | after `insert(w)` a node is terminal iff it was already terminal or it is the node reached by `w` |
| KeywordsTree.InsertCount | tokens.h:42-48 | `insert(w)` adds exactly 1 to the counter of each node on `w`'s path, the root included, and changes no other counter; a repeated insert counts again |
| KeywordsTree.EmptyWellCounted | tokens.h:9-13 | a fresh node satisfies the counting invariant |
| KeywordsTree.InsertWellCounted | tokens.h:42-50 | `insert` preserves the invariant: every counter is at least the sum of its children's counters, and exceeds it iff the node is terminal |
| KeywordsTree.BuildFind | tokens.h:26-51 | in a tree built by inserting `ws`, `find(p)` holds iff `p` is empty or a prefix of some word of `ws` |
| KeywordsTree.BuildTerminal | tokens.h:39-51 | in a tree built from `ws`, the terminal nodes are exactly those reached by the words of `ws` |
| KeywordsTree.BuildCount | tokens.h:39-51 | in a tree built from `ws`, the counter at `p` is the number of inserted words, repetitions included, that have `p` as a prefix |
| KeywordsTree.BuildRootCount | tokens.h:40-42 | the root's counter equals the number of `insert` calls since construction |
| KeywordsTree.BuildWellCounted | tokens.h:39-51 | every tree built by repeated `insert` from a fresh root satisfies the counting invariant |
| Lexer.IsSpace | main.cpp:180-182 | `isSpace`: exactly `' '`; a character class with no contract of its own |
| Lexer.IsEnter | main.cpp:184-186 | `isEnter`: exactly `'\n'`; a character class with no contract of its own |
| Lexer.IsAlpha | main.cpp:188-190 | `isAlpha`: ASCII letters only, so `_` is excluded; a character class with no contract of its own |
| Lexer.IsDigit | main.cpp:192-194 | `isDigit`: `'0'` to `'9'`; a character class with no contract of its own |
| Lexer.IsAlphaNumeric | main.cpp:196-198 | `isAlphaNumeric`: a letter or a digit; a character class with no contract of its own |
| Lexer.ClassifyWord | main.cpp:65-80 | the word branch of the loop, with no contract of its own; described by `ClassifyWordBuilt` and `KeywordClassification` |
| Lexer.NumberKind | main.cpp:91-95 | the number branch's choice of kind, with no contract of its own; `StepSign` states that a number is FLOAT iff its digits contain a `.` |
| Lexer.Scan | main.cpp:43-124 | the loop of `tokenize`, with no contract of its own; described by `ScanWellFormed`, `ScanCoverage` and `ScanCarriesSign`, and terminating because `Step` advances the cursor |
| Lexer.WordEnd | main.cpp:200-207 | `getWord` stops at the end of the maximal run of ASCII letters and digits starting at the cursor |
| Lexer.CharAt | main.cpp:213 | `input_[i]` for `i <= input_.length()`, reading `'\0'` at the end; a helper with no contract of its own, used by `NumberGuard` |
| Lexer.SignText | main.cpp:84-89 | the text a pending sign prepends to a number: nothing, `+` or `-`; no contract of its own, used by `StepSign` and `ScanCarriesSign` |
| Lexer.NumberGuard | main.cpp:213 | the loop guard of `getNumber` as written, with `'\0'` read at the end, is true iff the cursor is on a digit or a `.` |
| Lexer.NumberEnd | main.cpp:209-222 | `getNumber` consumes only digits and `.`, at most one `.`, and stops only at a non-digit: at a character that is neither digit nor `.`, or at a second `.` |
| Lexer.Step | main.cpp:43-124 | each loop iteration advances the cursor by at least one and emits at most one token, which is well formed for its kind |
| Lexer.StepCursor | main.cpp:51-121 | one iteration moves the cursor to the end of the word at a letter (`getWord`), to the end of the number at a digit (`getNumber`), and by exactly one position at every other character |
| Lexer.StepCoverage | main.cpp:51-123 | each iteration's token text equals the characters it consumed, apart from spaces, newlines and sign characters |
| Lexer.StepSilent | main.cpp:51-110 | an iteration emits nothing iff it reads a space, a newline, a `+`, or a `-` with no sign pending; it emits OPERATOR `-` iff it reads a `-` while a sign is pending |
| Lexer.StepSign | main.cpp:41-105 | a space clears the pending sign; `+` always sets it to `+`; `-` sets it to `-` when none is pending and otherwise leaves it; no other character except a digit changes it; a number takes the pending sign as its first character, clears it, and is FLOAT iff its digits contain a `.` |
| Lexer.ScanWellFormed | main.cpp:43-124 | every token the loop emits is well formed: words are classified by `ClassifyWord`, numbers are FLOAT iff they contain `.`, operators are `*`, `/` or `-`, punctuators are one of `( ) { } ;`, UNKNOWN tokens are one unhandled character, and STRING/LOGICAL literals never appear |
| Lexer.ScanCoverage | main.cpp:43-124 | the emitted token texts, concatenated, spell the rest of the input once spaces, newlines and sign characters are removed from both |
| Lexer.ScanCarriesSign | main.cpp:41-110 | a pending sign survives newlines, `*`, `/`, punctuators and UNKNOWN characters and is glued onto the next number: the number read at the first digit ahead is emitted with the sign's text in front |
| Lexer.SignGluedToNumber | main.cpp:84-104 | a `+` or `-` read with no sign pending, followed by sign-keeping characters and a digit, produces that number with the sign character in front |
| Lexer.WellFormedNotPlus | main.cpp:98-110 | no token is a lone `+` and no token is a string or logical literal |
| Lexer.Tokenize | main.cpp:36-127 | `tokenize` terminates; all its tokens are well formed, none is `+`, and together they cover the input up to spaces, newlines and signs |
| Lexer.TokenizeStartsUnsigned | main.cpp:36-89 | `tokenize` starts with no sign pending: a number reached before any space, sign character or letter is emitted unsigned |
| Lexer.TypeNamesAreNotKeywordPrefixes | main.cpp:151-177 | none of `int`, `float`, `bool`, `string` is a prefix of one of the 13 reserved words |
| Lexer.ClassifyWordBuilt | main.cpp:68-80 | against a tree built from `ws`, a word is KEYWORD iff it is empty or a prefix of a word of `ws`; otherwise it is the type named by `int`, `float`, `bool` or `string`; otherwise IDENTIFIER |
| Lexer.KeywordClassification | main.cpp:65-80 | with the analyser's 13 reserved words: KEYWORD exactly for prefixes of reserved words, the four type kinds exactly for their names, IDENTIFIER for every other word |
| ScannerExamples.SecondDotEndsNumber | main.cpp:209-222 | `1.2.3` scans as FLOAT `1.2`, UNKNOWN `.`, INTEGER `3` |
| ScannerExamples.SpaceClearsPendingSign | main.cpp:51-56 | in `5 - 3` the space after `-` clears the pending sign, giving INTEGER `5` and INTEGER `3` only |
| ScannerExamples.SecondMinusIsOperator | main.cpp:98-110 | `+-7` scans as OPERATOR `-` then INTEGER `+7` |
| ScannerExamples.PrefixIsKeyword | tokens.h:26-37 | `fo`, a prefix of `for`, is classified KEYWORD |
| ScannerExamples.NonPrefixIsIdentifier | main.cpp:68-80 | `x`, which starts no reserved word, is classified IDENTIFIER |

## Left out

- `main`, opening and reading the source file and printing errors (main.cpp:267-338): input and output. The model takes the source text as a string.
- `printTokens` and `getTokenTypeName` (main.cpp:226-264): display only.
- Line and column bookkeeping (the `position` of `Token`): not modelled. It is inconsistent in the code: a newline bumps the line twice and a space advances the column twice.
- Heap allocation of nodes, their leaks, and the null entries that `find` adds through `std::map::operator[]`: the model uses values and treats a null entry as an absent child.
- The unused `cnt` field of `KeywordsTree` and the commented-out code.
- `int64_t` overflow of `termCnt`: counters are unbounded naturals, since the analyser inserts 13 words.
- C++ `char` is a byte and may be signed; the model uses Dafny characters and reads each one as one byte of the input. The character classes only compare against ASCII ranges and literals, so every non-ASCII byte is UNKNOWN in both. A multi-byte character gives one UNKNOWN token per byte in the C++; fed code points instead of bytes, the model gives one per character.
- A k-th-word or ordered query: the code has none.
- `KeywordsTree.Find` is not stated to leave the tree unchanged by a separate lemma: it is a pure function that returns only a boolean.
- `Tokenize` models the first `tokenize()` call on a freshly constructed analyser (`position_` set to 0 by the constructor, main.cpp:32). The C++ keeps `position_` as a field and leaves it at the end of the input, so a second call on the same analyser returns no tokens; in the model that call is `Scan(s, |s|, sign, keywords)`, which is `[]`.

=== FILE: keywords_tree.dfy ===
/** The keyword prefix tree `KeywordsTree` of the lexical analyser.

    Every node (`KeywordsTree::Word` in the C++) carries a map from characters
    to child nodes, a counter `termCnt` that `insert` bumps on every node it
    walks through, and a flag `isTerm` that marks the end of an inserted word.
    The C++ tree is built from heap pointers; here it is an immutable value,
    and a missing key of the child map plays the part of a null child pointer.
 */
module KeywordsTree {

  datatype Option<T> = None | Some(value: T)

  /** One node of the tree. `termCnt` is the C++ `int64_t` counter, modelled
      as an unbounded natural number. */
  datatype Node = Node(to: map<char, Node>, termCnt: nat, isTerm: bool)

  /** A freshly allocated node (`new Word()`): no edges, zero count, not terminal. */
  function Empty(): Node
  {
    Node(map[], 0, false)
  }

  /** The child of `t` along edge `c`, or a fresh node when there is no such edge. */
  function Child(t: Node, c: char): Node
  {
    if c in t.to then t.to[c] else Empty()
  }

  /** `KeywordsTree::find`: walks `w` from `t` and fails as soon as an edge is
      missing. It never consults `isTerm`, so it is a path-exists test. */
  function Find(t: Node, w: string): bool
    decreases |w|
  {
    w == [] || (w[0] in t.to && Find(t.to[w[0]], w[1..]))
  }

  /** `KeywordsTree::insert`: bumps the count of `t` and of every node along
      `w`, creating the missing edges, and marks the last node terminal. */
  function Insert(t: Node, w: string): (r: Node)
    ensures Find(r, w) && Terminal(r, w)
    decreases |w|
  {
    if w == [] then Node(t.to, t.termCnt + 1, true)
    else Node(t.to[w[0] := Insert(Child(t, w[0]), w[1..])], t.termCnt + 1, t.isTerm)
  }

  /** Inserts the words of `ws` in order into a fresh root, as the analyser's
      constructor does with the reserved words. */
  function Build(ws: seq<string>): Node
    decreases |ws|
  {
    if ws == [] then Empty() else Insert(Build(ws[..|ws| - 1]), ws[|ws| - 1])
  }

  // ---------------------------------------------------------------------
  // Observers used to state properties of the tree
  // ---------------------------------------------------------------------

  /** The node reached by following the edges spelled by `p`, if all exist.
      Its `Some?` case walks the same edges as `Find`; the independent
      descriptions of `Find` are `InsertFind` and `BuildFind`, which speak of
      the inserted words only. */
  ghost function Reach(t: Node, p: string): Option<Node>
    decreases |p|
  {
    if p == [] then Some(t)
    else if p[0] in t.to then Reach(t.to[p[0]], p[1..])
    else None
  }

  /** The node reached by `p`, or a fresh node when the path is missing. */
  ghost function Subtree(t: Node, p: string): Node
  {
    match Reach(t, p)
    case Some(n) => n
    case None => Empty()
  }

  /** The counter of the node reached by `p`; 0 when there is no such node. */
  ghost function Count(t: Node, p: string): nat
  {
    match Reach(t, p)
    case Some(n) => n.termCnt
    case None => 0
  }

  /** Whether the node reached by `p` exists and is marked terminal. */
  ghost predicate Terminal(t: Node, p: string)
  {
    match Reach(t, p)
    case Some(n) => n.isTerm
    case None => false
  }

  /** Sum of the counters of the nodes in a child map. */
  ghost function ChildSum(m: map<char, Node>): nat
    decreases |m|
  {
    if m == map[] then 0
    else
      var k :| k in m;
      m[k].termCnt + ChildSum(m - {k})
  }

  /** The counting invariant: at every node the counter is at least the sum of
      the children's counters, and it exceeds that sum exactly when the node
      is terminal (the excess is the number of insertions that ended there). */
  ghost predicate WellCounted(t: Node)
    decreases t
  {
    && t.termCnt >= ChildSum(t.to)
    && (t.termCnt > ChildSum(t.to) <==> t.isTerm)
    && forall c :: c in t.to ==> WellCounted(t.to[c])
  }

  /** Number of words of `ws` that have `p` as a prefix, repetitions included. */
  ghost function PrefixCount(ws: seq<string>, p: string): nat
    decreases |ws|
  {
    if ws == [] then 0
    else PrefixCount(ws[..|ws| - 1], p) + (if p <= ws[|ws| - 1] then 1 else 0)
  }

  // ---------------------------------------------------------------------
  // find
  // ---------------------------------------------------------------------

  /** `find` succeeds exactly when the edge path spelled by `p` exists. */
  lemma {:induction false} FindIffPath(t: Node, p: string)
    ensures Find(t, p) <==> Reach(t, p).Some?
    decreases |p|
  {
    if p != [] && p[0] in t.to {
      FindIffPath(t.to[p[0]], p[1..]);
    }
  }

  /** `find` accepts every prefix of a path it accepts; in particular it
      accepts the empty word in every tree. */
  lemma {:induction false} FindPrefixClosed(t: Node, p: string, q: string)
    requires Find(t, q) && p <= q
    ensures Find(t, p)
    decreases |p|
  {
    if p != [] {
      assert p[0] == q[0] && p[1..] <= q[1..];
      FindPrefixClosed(t.to[p[0]], p[1..], q[1..]);
    }
  }

  // ---------------------------------------------------------------------
  // insert
  // ---------------------------------------------------------------------

  /** No path leads out of a fresh node. */
  lemma EmptyReach(p: string)
    requires p != []
    ensures Reach(Empty(), p) == None
  {
  }

  /** Along the path of `w`, `insert` leaves at depth |p| the insertion of the
      rest of `w` into what was there before (a fresh node if nothing was). */
  lemma {:induction false} InsertReachOnPath(t: Node, w: string, p: string)
    requires p <= w
    ensures Reach(Insert(t, w), p) == Some(Insert(Subtree(t, p), w[|p|..]))
    decreases |p|
  {
    if p == [] {
      assert w[|p|..] == w;
    } else {
      var c := w[0];
      assert p[0] == c && p[1..] <= w[1..];
      InsertReachOnPath(Child(t, c), w[1..], p[1..]);
      assert w[1..][|p[1..]|..] == w[|p|..];
      if c in t.to {
        assert Subtree(t, p) == Subtree(t.to[c], p[1..]);
      } else if p[1..] != [] {
        EmptyReach(p[1..]);
        assert Subtree(t, p) == Empty() == Subtree(Empty(), p[1..]);
      } else {
        assert Subtree(t, p) == Empty() == Subtree(Empty(), p[1..]);
      }
    }
  }

  /** `insert` changes nothing away from the path of `w`: the node reached by
      any `p` that is not a prefix of `w` is the same before and after. */
  lemma {:induction false} InsertReachOffPath(t: Node, w: string, p: string)
    requires !(p <= w)
    ensures Reach(Insert(t, w), p) == Reach(t, p)
    decreases |p|
  {
    assert p != [];
    if w != [] && p[0] == w[0] {
      var c := w[0];
      assert !(p[1..] <= w[1..]);
      InsertReachOffPath(Child(t, c), w[1..], p[1..]);
      if c !in t.to {
        assert |p| > 1 by {
          assert |p| == 1 ==> p == [c] <= w;
        }
        EmptyReach(p[1..]);
      }
    }
  }

  /** After `insert(w)`, `find` accepts exactly what it accepted before plus
      the prefixes of `w`: edges already present are reused and only the
      missing suffix of `w` gets new nodes. */
  lemma InsertFind(t: Node, w: string, p: string)
    ensures Find(Insert(t, w), p) <==> Find(t, p) || p <= w
  {
    FindIffPath(t, p);
    FindIffPath(Insert(t, w), p);
    if p <= w {
      InsertReachOnPath(t, w, p);
    } else {
      InsertReachOffPath(t, w, p);
    }
  }

  /** `insert(w)` marks the node reached by `w` terminal, keeps every flag
      already set, and sets no other flag. */
  lemma InsertTerminal(t: Node, w: string, p: string)
    ensures Terminal(Insert(t, w), p) <==> Terminal(t, p) || p == w
  {
    if p <= w {
      InsertReachOnPath(t, w, p);
      assert w[|p|..] == [] <==> p == w;
    } else {
      InsertReachOffPath(t, w, p);
    }
  }

  /** `insert(w)` adds exactly one to the counter of the root and of every
      node on the path of `w`, and leaves every other counter unchanged;
      inserting a word again counts it again. */
  lemma InsertCount(t: Node, w: string, p: string)
    ensures Count(Insert(t, w), p) == Count(t, p) + (if p <= w then 1 else 0)
  {
    if p <= w {
      InsertReachOnPath(t, w, p);
    } else {
      InsertReachOffPath(t, w, p);
    }
  }

  // ---------------------------------------------------------------------
  // The counting invariant
  // ---------------------------------------------------------------------

  /** `ChildSum` does not depend on the order in which keys are picked. */
  lemma {:induction false} ChildSumRemove(m: map<char, Node>, k: char)
    requires k in m
    ensures ChildSum(m) == m[k].termCnt + ChildSum(m - {k})
    decreases |m|
  {
    var j :| j in m && ChildSum(m) == m[j].termCnt + ChildSum(m - {j});
    if j != k {
      ChildSumRemove(m - {j}, k);
      ChildSumRemove(m - {k}, j);
      assert m - {j} - {k} == m - {k} - {j};
    }
  }

  /** Replacing (or adding) one child changes `ChildSum` by the difference of
      the counters. */
  lemma ChildSumUpdate(m: map<char, Node>, k: char, v: Node)
    ensures ChildSum(m[k := v]) + (if k in m then m[k].termCnt else 0)
            == ChildSum(m) + v.termCnt
  {
    ChildSumRemove(m[k := v], k);
    assert m[k := v] - {k} == m - {k};
    if k in m {
      ChildSumRemove(m, k);
    } else {
      assert m - {k} == m;
    }
  }

  /** A fresh root satisfies the counting invariant. */
  lemma EmptyWellCounted()
    ensures WellCounted(Empty())
  {
  }

  /** `insert` preserves the counting invariant. */
  lemma {:induction false} InsertWellCounted(t: Node, w: string)
    requires WellCounted(t)
    ensures WellCounted(Insert(t, w))
    decreases |w|
  {
    if w != [] {
      var c := w[0];
      var child := Child(t, c);
      assert WellCounted(child);
      InsertWellCounted(child, w[1..]);
      var inserted := Insert(child, w[1..]);
      ChildSumUpdate(t.to, c, inserted);
      assert Insert(t, w).to == t.to[c := inserted];
    }
  }

  // ---------------------------------------------------------------------
  // A tree built from a list of words
  // ---------------------------------------------------------------------

  /** In a tree built from `ws`, `find(p)` holds exactly when `p` is empty or
      a prefix of one of the words: a prefix test, not a membership test. */
  lemma {:induction false} BuildFind(ws: seq<string>, p: string)
    ensures Find(Build(ws), p) <==> p == [] || exists w :: w in ws && p <= w
    decreases |ws|
  {
    if ws == [] {
    } else {
      var init, last := ws[..|ws| - 1], ws[|ws| - 1];
      assert ws == init + [last];
      BuildFind(init, p);
      InsertFind(Build(init), last, p);
      if p <= last {
        assert last in ws;
      }
      if exists w :: w in init && p <= w {
        var w :| w in init && p <= w;
        assert w in ws;
      }
      if exists w :: w in ws && p <= w {
        var w :| w in ws && p <= w;
        assert w in init || w == last;
      }
    }
  }

  /** In a tree built from `ws`, the terminal nodes are exactly those reached
      by the words of `ws`. */
  lemma {:induction false} BuildTerminal(ws: seq<string>, p: string)
    ensures Terminal(Build(ws), p) <==> p in ws
    decreases |ws|
  {
    if ws != [] {
      var init, last := ws[..|ws| - 1], ws[|ws| - 1];
      assert ws == init + [last];
      BuildTerminal(init, p);
      InsertTerminal(Build(init), last, p);
    }
  }

  /** In a tree built from `ws`, the counter of the node reached by `p` is the
      number of insertions of words having `p` as a prefix. */
  lemma {:induction false} BuildCount(ws: seq<string>, p: string)
    ensures Count(Build(ws), p) == PrefixCount(ws, p)
    decreases |ws|
  {
    if ws != [] {
      BuildCount(ws[..|ws| - 1], p);
      InsertCount(Build(ws[..|ws| - 1]), ws[|ws| - 1], p);
    }
  }

  /** The root's counter is the number of `insert` calls made since construction. */
  lemma {:induction false} BuildRootCount(ws: seq<string>)
    ensures Build(ws).termCnt == |ws|
    decreases |ws|
  {
    if ws != [] {
      BuildRootCount(ws[..|ws| - 1]);
    }
  }

  /** Every tree built by repeated `insert` from a fresh root satisfies the
      counting invariant. */
  lemma {:induction false} BuildWellCounted(ws: seq<string>)
    ensures WellCounted(Build(ws))
    decreases |ws|
  {
    if ws == [] {
      EmptyWellCounted();
    } else {
      BuildWellCounted(ws[..|ws| - 1]);
      InsertWellCounted(Build(ws[..|ws| - 1]), ws[|ws| - 1]);
    }
  }
}

=== FILE: lexer.dfy ===
/** The scanner `LexicalAnalyser::tokenize` and its helpers.

    The scanner is a single pass over the input. Spaces and newlines produce
    nothing; a letter starts a word, classified through the keyword tree and
    the four type names; a digit starts a number; `+`, and `-` when no sign is
    pending, are held back as a pending sign that is glued onto the next
    number; `*`, `/` and a second `-` are operators; `( ) { } ;` are
    punctuators; anything else is a one-character UNKNOWN token.

    Tokens carry their kind and text only: the line and column bookkeeping of
    the C++ is not modelled.
 */
module Lexer {
  import KT = KeywordsTree

  /** `TokenType`. STRING_LITERAL and LOGICAL_LITERAL exist in the enumeration
      but the scanner never produces them. */
  datatype TokenType =
    | IntegerLiteral | FloatLiteral | StringLiteral | LogicalLiteral
    | IntegerType | FloatType | StringType | LogicalType
    | Keyword | Identifier | Operator | Punctuator | Unknown

  /** `Token`: a kind and the text it was made from. */
  datatype Token = Token(kind: TokenType, value: string)

  /** The scanner's `withNum` pair: either no sign is pending, or a `+` or a
      `-` has been read and waits for the next number. */
  datatype PendingSign = NoSign | Plus | Minus

  /** The reserved words inserted by `initializeKeywords`, in insertion order. */
  const Keywords: seq<string> :=
    ["if", "else", "case", "switch", "break", "continue", "const",
     "while", "for", "return", "void", "true", "false"]

  /** The analyser's keyword tree, built once by its constructor. */
  const KeywordStore: KT.Node := KT.Build(Keywords)

  // ---------------------------------------------------------------------
  // Character classes
  // ---------------------------------------------------------------------

  predicate IsSpace(c: char) { c == ' ' }

  predicate IsEnter(c: char) { c == '\n' }

  predicate IsAlpha(c: char) { 'a' <= c <= 'z' || 'A' <= c <= 'Z' }

  predicate IsDigit(c: char) { '0' <= c <= '9' }

  predicate IsAlphaNumeric(c: char) { IsAlpha(c) || IsDigit(c) }

  predicate IsArithmetic(c: char) { c == '+' || c == '-' || c == '*' || c == '/' }

  predicate IsPunctuator(c: char)
  {
    c == '(' || c == ')' || c == '{' || c == '}' || c == ';'
  }

  /** Characters that fall through every branch of the scanner. */
  predicate IsUnknownChar(c: char)
  {
    !IsSpace(c) && !IsEnter(c) && !IsAlphaNumeric(c) && !IsArithmetic(c) && !IsPunctuator(c)
  }

  /** `input_[i]` for `i <= |s|`: reading one past the last character of a
      `std::string` yields the terminating '\0'. */
  function CharAt(s: string, i: nat): char
    requires i <= |s|
  {
    if i < |s| then s[i] else '\0'
  }

  // ---------------------------------------------------------------------
  // Token shapes
  // ---------------------------------------------------------------------

  /** A run of letters and digits that starts with a letter. */
  predicate IsWord(x: string)
  {
    |x| > 0 && IsAlpha(x[0]) && forall k :: 0 <= k < |x| ==> IsAlphaNumeric(x[k])
  }

  /** No two `.` in `x`. */
  predicate AtMostOneDot(x: string)
  {
    forall a, b :: 0 <= a < b < |x| && x[a] == '.' ==> x[b] != '.'
  }

  /** A run of digits and at most one `.` that starts with a digit. */
  predicate IsUnsignedNumber(x: string)
  {
    && |x| > 0 && IsDigit(x[0])
    && (forall k :: 0 <= k < |x| ==> IsDigit(x[k]) || x[k] == '.')
    && AtMostOneDot(x)
  }

  /** An unsigned number, possibly preceded by one `+` or `-`. */
  predicate IsNumber(x: string)
  {
    IsUnsignedNumber(x) || (|x| > 0 && (x[0] == '+' || x[0] == '-') && IsUnsignedNumber(x[1..]))
  }

  /** What every token the scanner emits looks like, by kind. */
  predicate WellFormed(t: Token, keywords: KT.Node)
  {
    match t.kind
    case Keyword | IntegerType | FloatType | LogicalType | StringType | Identifier =>
      IsWord(t.value) && t.kind == ClassifyWord(keywords, t.value)
    case IntegerLiteral | FloatLiteral =>
      IsNumber(t.value) && t.kind == NumberKind(t.value)
    case Operator => t.value == "*" || t.value == "/" || t.value == "-"
    case Punctuator => |t.value| == 1 && IsPunctuator(t.value[0])
    case Unknown => |t.value| == 1 && IsUnknownChar(t.value[0])
    case StringLiteral | LogicalLiteral => false
  }

  // ---------------------------------------------------------------------
  // getWord and getNumber
  // ---------------------------------------------------------------------

  /** `getWord`: the position where the run of letters and digits starting at
      `i` ends. The word is `s[i..WordEnd(s, i)]`. */
  function WordEnd(s: string, i: nat): (e: nat)
    requires i <= |s|
    ensures i <= e <= |s|
    ensures forall k :: i <= k < e ==> IsAlphaNumeric(s[k])
    ensures e == |s| || !IsAlphaNumeric(s[e])
    decreases |s| - i
  {
    if i < |s| && IsAlphaNumeric(s[i]) then WordEnd(s, i + 1) else i
  }

  /** The loop guard of `getNumber` as written. `&&` binds tighter than `||`,
      so it reads `(i < |s| && isDigit(s[i])) || s[i] == '.'`; since the
      character at `|s|` is '\0', it agrees with the intended guard. */
  function NumberGuard(s: string, i: nat): (b: bool)
    requires i <= |s|
    ensures b <==> i < |s| && (IsDigit(s[i]) || s[i] == '.')
  {
    (i < |s| && IsDigit(CharAt(s, i))) || CharAt(s, i) == '.'
  }

  /** `getNumber` from position `i` with `hasDecimal` already seen: the
      position where the run of digits and `.` ends. A `.` after the first
      one ends the run. */
  function NumberEnd(s: string, i: nat, hasDecimal: bool): (e: nat)
    requires i <= |s|
    ensures i <= e <= |s|
    ensures forall k :: i <= k < e ==> IsDigit(s[k]) || s[k] == '.'
    ensures AtMostOneDot(s[i..e])
    ensures hasDecimal ==> '.' !in s[i..e]
    ensures e < |s| ==> !IsDigit(s[e])
    ensures e < |s| && s[e] == '.' ==> hasDecimal || '.' in s[i..e]
    decreases |s| - i
  {
    if NumberGuard(s, i) then
      if s[i] == '.' then
        if hasDecimal then i else NumberEnd(s, i + 1, true)
      else NumberEnd(s, i + 1, hasDecimal)
    else i
  }

  // ---------------------------------------------------------------------
  // Classification
  // ---------------------------------------------------------------------

  /** The word branch of `tokenize`: keyword first, then the four type names,
      then identifier. */
  function ClassifyWord(keywords: KT.Node, word: string): TokenType
  {
    if KT.Find(keywords, word) then Keyword
    else if word == "int" then IntegerType
    else if word == "float" then FloatType
    else if word == "bool" then LogicalType
    else if word == "string" then StringType
    else Identifier
  }

  /** The number branch of `tokenize`: FLOAT_LITERAL when the text holds a `.`. */
  function NumberKind(text: string): TokenType
  {
    if '.' in text then FloatLiteral else IntegerLiteral
  }

  /** The text a pending sign contributes to the next number. */
  function SignText(sign: PendingSign): string
  {
    match sign
    case NoSign => ""
    case Plus => "+"
    case Minus => "-"
  }

  // ---------------------------------------------------------------------
  // tokenize
  // ---------------------------------------------------------------------

  /** Text with the characters the scanner may swallow (space, newline and
      the sign characters) removed. */
  function Strip(x: string): string
  {
    if x == [] then []
    else (if x[0] in " \n+-" then [] else [x[0]]) + Strip(x[1..])
  }

  /** Stripping distributes over concatenation. */
  lemma {:induction false} StripConcat(a: string, b: string)
    ensures Strip(a + b) == Strip(a) + Strip(b)
    decreases |a|
  {
    if a == [] {
      assert a + b == b;
    } else {
      assert (a + b)[0] == a[0] && (a + b)[1..] == a[1..] + b;
      StripConcat(a[1..], b);
    }
  }

  /** The texts of `ts`, concatenated. */
  function Flatten(ts: seq<Token>): string
  {
    if ts == [] then [] else ts[0].value + Flatten(ts[1..])
  }

  /** The text `getWord` returns at a letter is a word. */
  lemma WordIsWord(s: string, pos: nat)
    requires pos < |s| && IsAlpha(s[pos])
    ensures IsWord(s[pos..WordEnd(s, pos)])
  {
  }

  /** The text `getNumber` returns at a digit, behind a pending sign, is a number. */
  lemma NumberIsNumber(s: string, pos: nat, sign: PendingSign)
    requires pos < |s| && IsDigit(s[pos])
    ensures IsNumber(SignText(sign) + s[pos..NumberEnd(s, pos, false)])
  {
    var digits := s[pos..NumberEnd(s, pos, false)];
    assert IsUnsignedNumber(digits);
    if sign != NoSign {
      assert (SignText(sign) + digits)[1..] == digits;
    }
  }

  /** What one iteration of the loop of `tokenize` does: the tokens it emits,
      where the cursor goes and the pending sign after it. */
  datatype StepResult = StepResult(emitted: seq<Token>, next: nat, sign: PendingSign)

  /** One iteration of the loop of `tokenize` at position `pos`. */
  function Step(s: string, pos: nat, sign: PendingSign, keywords: KT.Node): (r: StepResult)
    requires pos < |s|
    // the cursor always advances, which makes `tokenize` terminate
    ensures pos < r.next <= |s|
    ensures |r.emitted| <= 1 && forall t :: t in r.emitted ==> WellFormed(t, keywords)
  {
    var c := s[pos];
    if IsSpace(c) then
      StepResult([], pos + 1, NoSign)
    else if IsEnter(c) then
      StepResult([], pos + 1, sign)
    else if IsAlpha(c) then
      var e := WordEnd(s, pos);
      var word := s[pos..e];
      WordIsWord(s, pos);
      StepResult([Token(ClassifyWord(keywords, word), word)], e, sign)
    else if IsDigit(c) then
      var e := NumberEnd(s, pos, false);
      var number := SignText(sign) + s[pos..e];
      NumberIsNumber(s, pos, sign);
      StepResult([Token(NumberKind(number), number)], e, NoSign)
    else if IsArithmetic(c) then
      if c == '+' || (c == '-' && sign == NoSign) then
        StepResult([], pos + 1, if c == '+' then Plus else Minus)
      else
        StepResult([Token(Operator, [c])], pos + 1, sign)
    else if IsPunctuator(c) then
      StepResult([Token(Punctuator, [c])], pos + 1, sign)
    else
      StepResult([Token(Unknown, [c])], pos + 1, sign)
  }

  /** One iteration loses no character of the consumed span except spaces,
      newlines and sign characters, and adds none. */
  lemma StepCoverage(s: string, pos: nat, sign: PendingSign, keywords: KT.Node)
    requires pos < |s|
    ensures var r := Step(s, pos, sign, keywords);
            Strip(Flatten(r.emitted)) == Strip(s[pos..r.next])
  {
    var r := Step(s, pos, sign, keywords);
    var c := s[pos];
    if IsDigit(c) {
      var e := NumberEnd(s, pos, false);
      assert r.emitted == [Token(NumberKind(SignText(sign) + s[pos..e]), SignText(sign) + s[pos..e])];
      assert Flatten(r.emitted) == SignText(sign) + s[pos..e];
      StripConcat(SignText(sign), s[pos..e]);
      assert Strip(SignText(sign)) == [];
    } else if r.emitted == [] {
      assert r.next == pos + 1 && s[pos..r.next] == [c];
      assert c in " \n+-";
    } else {
      assert Flatten(r.emitted) == r.emitted[0].value == s[pos..r.next];
    }
  }

  /** The characters that emit nothing: spaces, newlines, `+`, and `-` when no
      sign is pending. A `-` read while a sign is pending is an operator. */
  lemma StepSilent(s: string, pos: nat, sign: PendingSign, keywords: KT.Node)
    requires pos < |s|
    ensures var r := Step(s, pos, sign, keywords);
            r.emitted == [] <==>
              IsSpace(s[pos]) || IsEnter(s[pos]) || s[pos] == '+' || (s[pos] == '-' && sign == NoSign)
    ensures Step(s, pos, sign, keywords).emitted == [Token(Operator, "-")]
            <==> s[pos] == '-' && sign != NoSign
  {
  }

  /** How the pending sign evolves: a space clears it; `+` always sets it to
      `Plus`; `-` sets it to `Minus` when none is pending and otherwise leaves
      it as it was; a number takes it as its first character and clears it;
      every other character leaves it alone. */
  lemma StepSign(s: string, pos: nat, sign: PendingSign, keywords: KT.Node)
    requires pos < |s|
    ensures IsSpace(s[pos]) ==> Step(s, pos, sign, keywords).sign == NoSign
    ensures s[pos] == '+' ==> Step(s, pos, sign, keywords).sign == Plus
    ensures s[pos] == '-' && sign == NoSign ==> Step(s, pos, sign, keywords).sign == Minus
    ensures s[pos] == '-' && sign != NoSign ==> Step(s, pos, sign, keywords).sign == sign
    ensures var r := Step(s, pos, sign, keywords);
            r.sign != sign ==> IsSpace(s[pos]) || IsDigit(s[pos]) || s[pos] == '+' || s[pos] == '-'
    ensures var r := Step(s, pos, sign, keywords);
            IsDigit(s[pos]) ==>
              && r.sign == NoSign
              && r.emitted[0].value == SignText(sign) + s[pos..r.next]
              && r.emitted[0].kind == (if '.' in s[pos..r.next] then FloatLiteral else IntegerLiteral)
  {
  }

  /** How far one iteration moves the cursor: past the whole word at a letter,
      past the whole number at a digit, and past exactly one character
      otherwise. In particular a space or a sign character never swallows the
      character after it. */
  lemma StepCursor(s: string, pos: nat, sign: PendingSign, keywords: KT.Node)
    requires pos < |s|
    ensures IsAlpha(s[pos]) ==> Step(s, pos, sign, keywords).next == WordEnd(s, pos)
    ensures IsDigit(s[pos]) ==> Step(s, pos, sign, keywords).next == NumberEnd(s, pos, false)
    ensures !IsAlphaNumeric(s[pos]) ==> Step(s, pos, sign, keywords).next == pos + 1
  {
  }

  /** The loop of `tokenize` from position `pos` with pending sign `sign`. */
  function Scan(s: string, pos: nat, sign: PendingSign, keywords: KT.Node): seq<Token>
    requires pos <= |s|
    decreases |s| - pos
  {
    if pos == |s| then []
    else
      var r := Step(s, pos, sign, keywords);
      r.emitted + Scan(s, r.next, r.sign, keywords)
  }

  /** `Flatten` distributes over concatenation. */
  lemma {:induction false} FlattenConcat(a: seq<Token>, b: seq<Token>)
    ensures Flatten(a + b) == Flatten(a) + Flatten(b)
    decreases |a|
  {
    if a == [] {
      assert a + b == b;
    } else {
      assert (a + b)[0] == a[0] && (a + b)[1..] == a[1..] + b;
      FlattenConcat(a[1..], b);
    }
  }

  /** Every token the loop emits from `pos` on is well formed. */
  lemma {:induction false} ScanWellFormed(s: string, pos: nat, sign: PendingSign, keywords: KT.Node)
    requires pos <= |s|
    ensures forall t :: t in Scan(s, pos, sign, keywords) ==> WellFormed(t, keywords)
    decreases |s| - pos
  {
    if pos < |s| {
      var r := Step(s, pos, sign, keywords);
      ScanWellFormed(s, r.next, r.sign, keywords);
    }
  }

  /** The tokens emitted from `pos` on spell the rest of the input, up to the
      spaces, newlines and sign characters. */
  lemma {:induction false} ScanCoverage(s: string, pos: nat, sign: PendingSign, keywords: KT.Node)
    requires pos <= |s|
    ensures Strip(Flatten(Scan(s, pos, sign, keywords))) == Strip(s[pos..])
    decreases |s| - pos
  {
    if pos == |s| {
      assert s[pos..] == [];
    } else {
      var r := Step(s, pos, sign, keywords);
      var rest := Scan(s, r.next, r.sign, keywords);
      calc {
        Strip(Flatten(Scan(s, pos, sign, keywords)));
        Strip(Flatten(r.emitted + rest));
        { FlattenConcat(r.emitted, rest); }
        Strip(Flatten(r.emitted) + Flatten(rest));
        { StripConcat(Flatten(r.emitted), Flatten(rest)); }
        Strip(Flatten(r.emitted)) + Strip(Flatten(rest));
        { StepCoverage(s, pos, sign, keywords); ScanCoverage(s, r.next, r.sign, keywords); }
        Strip(s[pos..r.next]) + Strip(s[r.next..]);
        { StripConcat(s[pos..r.next], s[r.next..]); assert s[pos..] == s[pos..r.next] + s[r.next..]; }
        Strip(s[pos..]);
      }
    }
  }

  /** Characters that emit a token or nothing but leave the pending sign and
      move the cursor by one: newlines, `*`, `/`, punctuators and UNKNOWN
      characters. */
  predicate KeepsSign(c: char)
  {
    !IsSpace(c) && !IsAlphaNumeric(c) && c != '+' && c != '-'
  }

  /** A pending sign survives every character that keeps it and is glued onto
      the next number: if the loop is at `pos` with `sign` pending and only
      sign-keeping characters stand before the digit at `j`, the number read
      at `j` is emitted with the sign's text in front. */
  lemma {:induction false} ScanCarriesSign(s: string, pos: nat, j: nat, sign: PendingSign, keywords: KT.Node)
    requires pos <= j < |s| && IsDigit(s[j])
    requires forall k :: pos <= k < j ==> KeepsSign(s[k])
    ensures var x := SignText(sign) + s[j..NumberEnd(s, j, false)];
            Token(NumberKind(x), x) in Scan(s, pos, sign, keywords)
    decreases j - pos
  {
    var r := Step(s, pos, sign, keywords);
    if pos < j {
      assert KeepsSign(s[pos]);
      assert r.next == pos + 1 && r.sign == sign;
      ScanCarriesSign(s, pos + 1, j, sign, keywords);
    }
  }

  /** A `+` or `-` read with no sign pending is glued onto the number that
      follows it, across any sign-keeping characters in between. */
  lemma SignGluedToNumber(s: string, i: nat, j: nat, keywords: KT.Node)
    requires i < j < |s| && (s[i] == '+' || s[i] == '-') && IsDigit(s[j])
    requires forall k :: i < k < j ==> KeepsSign(s[k])
    ensures var x := [s[i]] + s[j..NumberEnd(s, j, false)];
            Token(NumberKind(x), x) in Scan(s, i, NoSign, keywords)
  {
    var r := Step(s, i, NoSign, keywords);
    assert r.emitted == [] && r.next == i + 1;
    assert SignText(r.sign) == [s[i]];
    ScanCarriesSign(s, i + 1, j, r.sign, keywords);
  }

  /** No well-formed token is a lone `+`: a `+` is always held back as a sign. */
  lemma WellFormedNotPlus(t: Token, keywords: KT.Node)
    requires WellFormed(t, keywords)
    ensures t.value != "+"
    ensures t.kind != StringLiteral && t.kind != LogicalLiteral
  {
  }

  /** `LexicalAnalyser(source).tokenize()`: the scanner run over the whole
      input with no sign pending and the reserved-word tree. */
  function Tokenize(s: string): (tokens: seq<Token>)
    ensures forall t :: t in tokens ==> WellFormed(t, KeywordStore)
    ensures forall t :: t in tokens ==> t.value != "+"
    ensures Strip(Flatten(tokens)) == Strip(s)
  {
    ScanWellFormed(s, 0, NoSign, KeywordStore);
    ScanCoverage(s, 0, NoSign, KeywordStore);
    assert s[0..] == s;
    var tokens := Scan(s, 0, NoSign, KeywordStore);
    assert forall t :: t in tokens ==> t.value != "+" by {
      forall t | t in tokens {
        WellFormedNotPlus(t, KeywordStore);
      }
    }
    tokens
  }

  /** `tokenize` starts with no sign pending: a number read before any space,
      sign character or letter is emitted unsigned. */
  lemma TokenizeStartsUnsigned(s: string, j: nat)
    requires j < |s| && IsDigit(s[j])
    requires forall k :: 0 <= k < j ==> KeepsSign(s[k])
    ensures var x := s[j..NumberEnd(s, j, false)];
            Token(NumberKind(x), x) in Tokenize(s)
  {
    ScanCarriesSign(s, 0, j, NoSign, KeywordStore);
    assert SignText(NoSign) + s[j..NumberEnd(s, j, false)] == s[j..NumberEnd(s, j, false)];
  }

  /** None of the four type names is a prefix of a reserved word, so the
      type-name branches of `tokenize` are reachable. */
  lemma TypeNamesAreNotKeywordPrefixes()
    ensures forall k :: k in Keywords ==> !("int" <= k) && !("float" <= k) && !("bool" <= k) && !("string" <= k)
  {
    forall k | k in Keywords
      ensures !("int" <= k) && !("float" <= k) && !("bool" <= k) && !("string" <= k)
    {
      assert |k| >= 2;
      assert k[0] != 'i' || k[1] != 'n';
      assert k[0] != 'f' || k[1] != 'l';
      assert k[0] != 'b' || k[1] != 'o';
      assert k[0] != 's' || k[1] != 't';
    }
  }

  /** How a word is classified against a tree built from `ws`: KEYWORD exactly
      for the empty word and the prefixes of the words of `ws` (the tree
      lookup is a prefix test), then the four type names, then IDENTIFIER. */
  lemma ClassifyWordBuilt(ws: seq<string>, word: string)
    requires forall k :: k in ws ==> !("int" <= k) && !("float" <= k) && !("bool" <= k) && !("string" <= k)
    ensures ClassifyWord(KT.Build(ws), word) == Keyword
            <==> word == [] || exists k :: k in ws && word <= k
    ensures ClassifyWord(KT.Build(ws), word) == IntegerType <==> word == "int"
    ensures ClassifyWord(KT.Build(ws), word) == FloatType <==> word == "float"
    ensures ClassifyWord(KT.Build(ws), word) == LogicalType <==> word == "bool"
    ensures ClassifyWord(KT.Build(ws), word) == StringType <==> word == "string"
    ensures ClassifyWord(KT.Build(ws), word) == Identifier
            <==> && !(word == [] || exists k :: k in ws && word <= k)
                 && word != "int" && word != "float" && word != "bool" && word != "string"
  {
    KT.BuildFind(ws, word);
  }

  /** The analyser's own classification: KEYWORD for the empty word and every
      prefix of a reserved word (so `i`, `fo` and `con` are keywords), the
      type names `int`, `float`, `bool` and `string`, IDENTIFIER otherwise. */
  lemma KeywordClassification(word: string)
    ensures ClassifyWord(KeywordStore, word) == Keyword
            <==> word == [] || exists k :: k in Keywords && word <= k
    ensures ClassifyWord(KeywordStore, word) == IntegerType <==> word == "int"
    ensures ClassifyWord(KeywordStore, word) == FloatType <==> word == "float"
    ensures ClassifyWord(KeywordStore, word) == LogicalType <==> word == "bool"
    ensures ClassifyWord(KeywordStore, word) == StringType <==> word == "string"
    ensures ClassifyWord(KeywordStore, word) == Identifier
            <==> && !(word == [] || exists k :: k in Keywords && word <= k)
                 && word != "int" && word != "float" && word != "bool" && word != "string"
  {
    TypeNamesAreNotKeywordPrefixes();
    ClassifyWordBuilt(Keywords, word);
  }
}

=== FILE: scanner_examples.dfy ===
/** Worked inputs for the scanner, showing the behaviour of the code as it
    stands: the second `.` of a number, the pending sign, and the prefix-based
    keyword lookup. */
module ScannerExamples {
  import KT = KeywordsTree
  import opened Lexer

  lemma DotIsUnknown()
    ensures IsUnknownChar('.')
  {
  }

  /** A second `.` ends a number: `1.2.3` is a float, an UNKNOWN `.` and an integer. */
  lemma SecondDotEndsNumber(keywords: KT.Node)
    ensures Scan("1.2.3", 0, NoSign, keywords)
            == [Token(FloatLiteral, "1.2"), Token(Unknown, "."), Token(IntegerLiteral, "3")]
  {
    var s := "1.2.3";
    assert Step(s, 0, NoSign, keywords) == StepResult([Token(FloatLiteral, "1.2")], 3, NoSign) by {
      assert IsDigit(s[0]) && !IsAlpha(s[0]) && !IsSpace(s[0]) && !IsEnter(s[0]);
      assert NumberEnd(s, 3, true) == 3;
      assert NumberEnd(s, 0, false) == 3;
      assert s[0..3] == "1.2";
      assert SignText(NoSign) + "1.2" == "1.2";
      assert "1.2"[1] == '.';
      assert NumberKind("1.2") == FloatLiteral;
    }
    assert Step(s, 3, NoSign, keywords) == StepResult([Token(Unknown, ".")], 4, NoSign) by {
      assert s[3] == '.';
      DotIsUnknown();
    }
    assert Step(s, 4, NoSign, keywords) == StepResult([Token(IntegerLiteral, "3")], 5, NoSign) by {
      assert IsDigit(s[4]) && !IsAlpha(s[4]) && !IsSpace(s[4]) && !IsEnter(s[4]);
      assert NumberEnd(s, 4, false) == 5;
      assert s[4..5] == "3";
      assert SignText(NoSign) + "3" == "3";
      assert NumberKind("3") == IntegerLiteral;
    }
    assert Scan(s, 5, NoSign, keywords) == [];
    assert Scan(s, 4, NoSign, keywords) == [Token(IntegerLiteral, "3")];
    assert Scan(s, 3, NoSign, keywords) == [Token(Unknown, "."), Token(IntegerLiteral, "3")];
  }

  /** A `-` followed by a space is dropped, so `5 - 3` has no operator token. */
  lemma SpaceClearsPendingSign(keywords: KT.Node)
    ensures Scan("5 - 3", 0, NoSign, keywords)
            == [Token(IntegerLiteral, "5"), Token(IntegerLiteral, "3")]
  {
    var s := "5 - 3";
    assert Step(s, 0, NoSign, keywords) == StepResult([Token(IntegerLiteral, "5")], 1, NoSign) by {
      assert IsDigit(s[0]) && !IsAlpha(s[0]) && !IsSpace(s[0]) && !IsEnter(s[0]);
      assert NumberEnd(s, 0, false) == 1;
      assert s[0..1] == "5";
      assert SignText(NoSign) + "5" == "5";
      assert NumberKind("5") == IntegerLiteral;
    }
    assert Step(s, 1, NoSign, keywords) == StepResult([], 2, NoSign);
    assert Step(s, 2, NoSign, keywords) == StepResult([], 3, Minus);
    assert Step(s, 3, Minus, keywords) == StepResult([], 4, NoSign);
    assert Step(s, 4, NoSign, keywords) == StepResult([Token(IntegerLiteral, "3")], 5, NoSign) by {
      assert IsDigit(s[4]) && !IsAlpha(s[4]) && !IsSpace(s[4]) && !IsEnter(s[4]);
      assert NumberEnd(s, 4, false) == 5;
      assert s[4..5] == "3";
      assert SignText(NoSign) + "3" == "3";
      assert NumberKind("3") == IntegerLiteral;
    }
    assert Scan(s, 5, NoSign, keywords) == [];
    assert Scan(s, 4, NoSign, keywords) == [Token(IntegerLiteral, "3")];
    assert Scan(s, 1, NoSign, keywords) == [Token(IntegerLiteral, "3")];
  }

  /** A `-` read while a sign is pending is an operator; the pending sign then
      glues onto the next number, and `+` never becomes a token. */
  lemma SecondMinusIsOperator(keywords: KT.Node)
    ensures Scan("+-7", 0, NoSign, keywords)
            == [Token(Operator, "-"), Token(IntegerLiteral, "+7")]
  {
    var s := "+-7";
    assert Step(s, 0, NoSign, keywords) == StepResult([], 1, Plus);
    assert Step(s, 1, Plus, keywords) == StepResult([Token(Operator, "-")], 2, Plus);
    assert Step(s, 2, Plus, keywords) == StepResult([Token(IntegerLiteral, "+7")], 3, NoSign) by {
      assert IsDigit(s[2]) && !IsAlpha(s[2]) && !IsSpace(s[2]) && !IsEnter(s[2]);
      assert NumberEnd(s, 2, false) == 3;
      assert s[2..3] == "7";
      assert SignText(Plus) + "7" == "+7";
      assert NumberKind("+7") == IntegerLiteral;
    }
    assert Scan(s, 3, NoSign, keywords) == [];
    assert Scan(s, 2, Plus, keywords) == [Token(IntegerLiteral, "+7")];
  }

  /** The lookup is a prefix test: `fo`, a prefix of `for`, is a keyword. */
  lemma PrefixIsKeyword()
    ensures ClassifyWord(KeywordStore, "fo") == Keyword
  {
    KeywordClassification("fo");
    assert "for" in Keywords && "fo" <= "for";
  }

  /** A word that starts no reserved word is an identifier. */
  lemma NonPrefixIsIdentifier()
    ensures ClassifyWord(KeywordStore, "x") == Identifier
  {
    KeywordClassification("x");
    NoKeywordStartsWithX();
  }

  lemma NoKeywordStartsWithX()
    ensures forall k :: k in Keywords ==> !("x" <= k)
  {
    forall k | k in Keywords
      ensures !("x" <= k)
    {
      assert k[0] != 'x';
    }
  }
}
